=== FILE: README.md ===
# Mean-reversion backtester: a Dafny model

This project models the core of a small Python mean-reversion trading
backtester and proves properties of that model. It covers four parts.

- **Ledger engine** (`ledger.dfy`, module `Ledger`). `Backtest.run_backtest`
  walks a price series one day at a time and writes a ledger row per day:
  close, position label, cash, equity, capital and share volume. `Step` is
  that day's transition and `Run` folds it over the series. The model
  proves the accounting identity `capital == cash + equity` for every row,
  together with the equity mark (long equity is `close * volume`, short
  equity is its negation, and a neutral row holds nothing). A day on which
  the algorithm reports both long and short aborts the run.
- **Ledger analyzers** (`analyzer.dfy`, module `Analyzer`). These cover:
  - the position count;
  - splitting the ledger into trades, and the P/L ratio of each trade;
  - dropping outliers more than two standard deviations from the mean P/L;
  - the Kelley criterion;
  - the buy-and-hold control benchmark;
  - the return-on-investment term of the Sharpe ratio.
- **Bollinger-band strategy** (`bollinger.dfy`, module `Bollinger`). This is
  `BollingerBands` from Algo.py and its duplicate in Bollinger_Algorithm.py.
  It covers the band arithmetic and the entry/exit state machine over
  `(is_long, is_short, entry, highest, lowest)`. It also covers the daily
  signals that the strategy feeds to the engine.
- **SMA20 strategy** (`sma20.dfy`, module `Sma20`). This is barebones.py:
  - the 20-day simple moving average at a date;
  - the step back from a date to the latest trading day on or before it;
  - the long/short rule applied to each day of `run_algo`.

Shared pieces are `Results` (error outcomes) and `Stats` (sums, means,
extrema and population variance over `real`).

All arithmetic is exact `real`. The share count is Python's floor division
(`.Floor`), and prices and dates are inputs.

The source's `None` and `"Neutral"` labels are one `Neutral` label. Row 0
of a ledger is the seed row: all capital is cash and the position is
neutral.

Some behaviours of the code are easy to miss. The model follows them:
- A flip between long and short liquidates yesterday's cash plus
  yesterday's marked equity, not today's. The identity still holds.
- The share count is negative when the liquidated cash is negative.
- An unchanged neutral day carries the previous volume forward. The volume
  is still 0 whenever the previous row was consistent.
- A request before the first trading day raises `TypeError`, not the
  `ValueError` the `raise` statement names: its message concatenates the
  bound method `self.get_ticker` to a string, so building it fails. The
  model records this as the error `BeforeFirstDate`.

## Model

| member | source | states |
|---|---|---|
| Ledger.Seed | Backtest.py:50-54 | The first row holds the first close, all capital as cash, is neutral with no equity or shares, and satisfies the accounting identity and the marks |
| Ledger.Decide | Backtest.py:88-97 | The day fails exactly when the algorithm is both long and short; otherwise the label is Long exactly when long and Short exactly when short |
| Ledger.Shares | Backtest.py:105-107 | Floor division buys the largest whole number of shares whose value does not exceed the cash; the count is non-negative exactly when the cash is |
| Ledger.Step | Backtest.py:102-150 | An unchanged label copies cash and volume. An entry liquidates yesterday's cash plus equity, buys the floor share count and keeps capital; a long entry leaves cash in [0, close). Closing from long or short settles cash and moves capital by the day's price change times the previous volume. An unchanged neutral day keeps capital, and holding moves capital by the price change |
| Ledger.StepConsistent | Backtest.py:101-158 | If yesterday's row satisfies capital = cash + equity and the long/short/neutral equity marks, so does today's row, for every label, including flips |
| Ledger.FollowsConsistent | Backtest.py:81-159 | Every row written after a consistent row is consistent |
| Ledger.ConsistentUpTo | Backtest.py:81-159 | The k-th row written after a consistent row is consistent (induction over the days) |
| Ledger.RunFrom | Backtest.py:81-160 | The run completes exactly when no day reports both long and short, and then writes one row per close; otherwise it stops at the first such day, before writing its row |
| Ledger.Run | Backtest.py:76-161 | From the seed row, the ledger has one row per close plus the seed. Every later row is the step from the row before it, at that day's close, to the label that day's signal asks for. From a consistent seed, every row has capital = cash + equity, long equity close·volume, short equity −close·volume, and neutral rows hold no shares and no equity. The run completes exactly when no day conflicts; otherwise it aborts at a conflicting day with no conflict before it |
| Analyzer.CountFrom | Backtest.py:332-338 | The counting loop from row i adds at most one position per row it scans |
| Analyzer.CountFromIsEntries | Backtest.py:332-338 | The counting loop from row i counts exactly the rows from i on whose label is not neutral and differs from the row before |
| Analyzer.PositionCount | Backtest.py:330-339 | `_position_count` is the number of entries: rows i ≥ 1 whose label is not neutral and differs from row i−1's label, with row 0 read as `None` |
| Analyzer.ScanTrades | Backtest.py:283-292 | The segmentation loop from row i closes at most one trade per row it scans, plus one still open at the end |
| Analyzer.ExitRowLeavesLabel | Backtest.py:283-292 | Where a position labelled p is left: every row from j up to that row keeps p, and that row changes it unless it is the last row |
| Analyzer.TradesFrom | Backtest.py:283-294 | The reference segmentation has exactly one trade per entry |
| Analyzer.ScanMatchesReference | Backtest.py:283-294 | The segmentation loop emits the open trade, if any, followed by one trade per later entry. Each trade runs from its entry row to the next label change, or to the last row if the trade is still open |
| Analyzer.Segments | Backtest.py:280-294 | With two rows or a neutral row 0, the trades are exactly the reference trades, one per entry, from the capital at the entry to the capital at the next label change or the last row. A one-row ledger whose row is not neutral gives the single trade from the placeholder capital −1 to that row's capital |
| Analyzer.SegmentCountIsPositionCount | Backtest.py:280-294 | The number of P/L values equals `_position_count` |
| Analyzer.Ratio | Backtest.py:290 | A trade's P/L relative to a positive entry capital is positive exactly when capital grew and negative exactly when it shrank |
| Analyzer.PlRatios | Backtest.py:286-294 | One ratio per trade, (exit − entry) / entry; fails exactly when some trade was entered with zero capital |
| Analyzer.KeptIsWithinTwoStd | Backtest.py:298-300 | The squared test (x − mean)² < 4·variance keeps exactly the values with \|x − mean\| < 2·std, for std the non-negative square root of the variance |
| Analyzer.Trim | Backtest.py:299-300 | The result holds every value of the P/L array that passes the two-standard-deviation test, as many times as it occurs there, and no other value |
| Analyzer.TrimmedEmptyIffAllEqual | Backtest.py:296-302 | Trimming keeps nothing exactly when all P/L values are equal |
| Analyzer.ConstantTrimsAll | Backtest.py:298-302 | Equal P/L values have zero variance, so nothing is kept |
| Analyzer.UnequalKeepsOne | Backtest.py:298-302 | Unequal P/L values keep at least one value |
| Analyzer.SomeKept | Backtest.py:298-300 | When the deviations are not all zero, some value lies strictly within two standard deviations |
| Analyzer.CountsBounded | Backtest.py:305-308 | Winning and losing trades together are at most all trades |
| Analyzer.Kelley | Backtest.py:305-309 | With at least one winning and one losing trade, the criterion win_prob − (1 − win_prob)/win_loss is strictly below the win probability, and with no break-even trade it equals (wins − losses)/wins |
| Analyzer.PlStatistics | Backtest.py:296-309 | Fails with an empty trim exactly when all P/L values are equal, then with no losing trade exactly when none is negative, then with no winning trade. On success, both averages lie between the smallest and the largest P/L, and the criterion is below the win probability |
| Analyzer.PlStatisticsValues | Backtest.py:296-309 | With unequal P/L values and at least one winning and one losing trade the statistics succeed; the three values are then the mean P/L, the mean of the trades kept within two standard deviations, and winProb − (1 − winProb)/(wins/losses) with both counts positive |
| Analyzer.PlAnalysis | Backtest.py:280-309 | Segmenting, taking ratios and summarising fails with zero capital exactly when a trade was entered with zero capital. A summary needs at least two rows and at least two positions taken |
| Analyzer.ProfitControl | Backtest.py:265-268 | Buying at row 1's close with row 0's capital leaves less than one share's price in cash. The result is the shares times the price move over the start capital, in percent, and is 0 when the price did not move. It fails exactly when there are fewer than two rows or the start capital is 0 |
| Analyzer.ControlGain | Backtest.py:267-268 | The percentage is 0 without a price move, and with positive capital it is positive exactly when shares were bought and the price rose |
| Analyzer.ReturnOnInvestment | Backtest.py:314 | With a positive first capital, the return is positive exactly when the last capital is larger, and negative exactly when it is smaller |
| Bollinger.CalMovingAvg | Algo.py:205-213 | The mean lies within the window. With std ≥ 0 the bands are ordered lower2 ≤ lower1 ≤ sma ≤ upper1 ≤ upper2, strictly for std > 0, and they collapse for std = 0. They are symmetric and equally spaced; the copy at Bollinger_Algorithm.py:70-78 is identical |
| Bollinger.EnterLong | Algo.py:237-241 | The long entry changes the state only when set up and not already long; it then goes long at today's close and clears short; the copy at Bollinger_Algorithm.py:110-114 is identical |
| Bollinger.EnterShort | Algo.py:245-249 | The short entry changes the state only when set up and not already short; it then goes short at today's close and clears long; the copy at Bollinger_Algorithm.py:118-122 is identical |
| Bollinger.ExitLong | Algo.py:252-261 | A long ends exactly when the stop-loss (entry − today ≥ 0.001) or the trailing stop from the raised high fires; the high is then reset to −10000. Otherwise the high is max(high, today); the copy at Bollinger_Algorithm.py:127-136 is identical |
| Bollinger.ExitShort | Algo.py:264-273 | A short ends exactly when the stop-loss (today − entry ≥ 0.001) or the trailing stop from the lowered low fires; the low is then reset to 10000. Otherwise the low is min(low, today); the copy at Bollinger_Algorithm.py:139-148 is identical |
| Bollinger.RunAlgo | Algo.py:215-273 | Mutual exclusion is preserved. A new position needs its set-up and records entry = today. An open long has highest ≥ today and an open short has lowest ≤ today. A position opened today is never closed by the stop-loss on the same call, only by the trailing stop; the copy at Bollinger_Algorithm.py:80-148 is identical |
| Bollinger.FreshEntrySurvivesWhenClean | Algo.py:237-273 | From a state with both extremes at their sentinels and a close strictly between them, a position opened today is still open at the end of the call |
| Bollinger.StaleLowClosesFreshShort | Algo.py:237-273 | Over consecutive days, with each call's yesterday close and bands the previous call's, a short that ends in a flip keeps its low. A later short opened at a higher close is closed on its first call, and the repaired machine keeps it open |
| Bollinger.SentinelClosesFreshShort | Algo.py:264-273 | A short opened at a close above 10000 is closed on its first call, because the low stays at the 10000 sentinel |
| Bollinger.EnterLongRepaired | Algo.py:237-241 | As EnterLong, and the high starts at the entry close |
| Bollinger.EnterShortRepaired | Algo.py:245-249 | As EnterShort, and the low starts at the entry close |
| Bollinger.RunAlgoRepaired | Algo.py:215-273 | With the extreme restarted at each entry, mutual exclusion is preserved, and a position opened today is open at the end of the call, at any price level |
| Bollinger.SetLong | Bollinger_Algorithm.py:174-180 | `set_long` raises only the long flag, so the result is exclusive exactly when the strategy was not short; the private `__set_long` at Algo.py:103-112 is the same |
| Bollinger.SetShort | Bollinger_Algorithm.py:182-188 | `set_short` raises only the short flag, so the result is exclusive exactly when the strategy was not long; the private `__set_short` at Algo.py:114-123 is the same |
| Bollinger.Advance | Backtest.py:87 | One day of the strategy preserves mutual exclusion |
| Bollinger.Signals | Backtest.py:86-97 | The daily (is_long, is_short) pairs, one per day, never both true from an exclusive start |
| Bollinger.BandSignalsNeverAbort | Backtest.py:88-90 | Fed by the band strategy from its initial state, the backtest always completes, with one row per close after the seed |
| Sma20.Window | barebones.py:107-111 | The averaged window ends at the day and has 20 closes from index 19 on, idx + 1 before |
| Sma20.WindowMean | barebones.py:107-111 | Both branches are the mean of the window; at index 19 they coincide |
| Sma20.WindowMeanBounds | barebones.py:107-111 | The average lies between the window's smallest and largest close |
| Sma20.WindowMeanOfConstant | barebones.py:107-111 | Constant closes average to that constant |
| Sma20.LatestIndex | barebones.py:102-105 | The reference: an index whose date is on or before the request, with every later date after it |
| Sma20.IndexOf | barebones.py:105 | `get_loc`: the position of a trading day |
| Sma20.TradingDayOnOrBefore | barebones.py:102-103 | Stepping back one day at a time ends on a trading day on or before the request, with no trading day in between; the first date bounds the walk |
| Sma20.WalkFindsLatest | barebones.py:102-105 | The day the walk stops at is the latest trading day on or before the request |
| Sma20.LatestOfTradingDay | barebones.py:55-62 | A trading day's own date maps back to its index |
| Sma20.SmaAt | barebones.py:92-111 | Fails on an empty history and on a request before the first date; otherwise lies within the closes of the window of the latest trading day |
| Sma20.SimpleMovingAverage | barebones.py:82-111 | `get_simple_moving_average` with its walk-back loop computes the reference average |
| Sma20.Decide | barebones.py:55-60 | Short exactly when the close is above the average, and exactly one of long and short |
| Sma20.LoopDayAverage | barebones.py:42-62 | The first day of the loop is compared with the average at the requested date, every later day with the average of the previous trading day |
| Sma20.DecisionLoop | barebones.py:54-62 | The loop leaves the decision of its last day, or none when the range is empty |
| Sma20.RunDecisions | barebones.py:44-62 | Fails on an empty history, on a start before the first date, and on a stop date that is not a trading day; otherwise yields the loop's last decision |
| Sma20.Record | barebones.py:56-60 | The decision goes to the `long`/`short` attributes and `is_long`/`is_short` never change |
| Sma20.RecordRepaired | barebones.py:22-23 | The decision sets the flags the getters report, exactly one of them |
| Sma20.GettersMissDecision | barebones.py:56-60 | A day decided short leaves `is_short` false as written, and true when repaired |
| Sma20.RunAlgo | barebones.py:22-62 | Fails exactly on an empty history, an early start or an unknown stop. On success the getters' flags are unchanged, and after at least one day the written decision is exactly one of long and short, short exactly when the last close is above its average |
| Sma20.RunAlgoRepaired | barebones.py:22-62 | The same failures. On success, after at least one day, exactly one flag is set, short exactly when the last close is above its average; an exclusive strategy stays exclusive |

## Left out

- Market data and the treasury rate come from the network. Prices, dates and band widths are inputs instead.
- The report, the plots, the template substitution and the PDF conversion are not modelled.
- The CSV debug load is not modelled. A ledger is an input sequence instead.
- The Sharpe ratio needs the network rate and a square-root standard deviation of closes. Only its return-on-investment term is modelled, as `Analyzer.ReturnOnInvestment`.
- The search for the backtest's first trading day walks back with no lower bound and uses pandas dates. It is not modelled.
- `get_current_data` and the rolling mean and standard deviation of the price window are not modelled. The standard deviation is an input of `Bollinger.CalMovingAvg`.
- `MinhsAlgo` is not modelled. It builds pandas columns, never sets the signals and swallows its exceptions.
- `get_type_check` is a run-time `isinstance` check and is not modelled.
- Floating-point rounding is not modelled. The test suite's tolerance of 1e-6 is replaced by exact equality over `real`.
- The two neutral labels `None` and `"Neutral"` are one label. In the source, `_position_count` would count `"Neutral"` as a position.
- Ledger.Step: requires a positive close. The source divides by the close.
- Ledger.Run: the algorithm's daily flags are an input sequence. `Bollinger.Signals` produces them for the band strategy.
- Analyzer.PlRatios: a zero entry capital is the error `ZeroCapital` here. In the source that ratio is `inf` or `nan`; the standard deviation is then `nan`, no value passes the trim test, and the source raises "Trimmed P/L array is empty". Both end in an error, but with different names.
- Analyzer.ProfitControl: requires a positive close on row 1. Zero start capital is an error here, where numpy would produce `nan` or `inf`.
- Analyzer.ReturnOnInvestment: zero first capital is an error here, where numpy would produce `nan` or `inf`.
- Analyzer.PlStatistics: no winning trade with some losing ones is the error `NoWinningTrades`. The source raises `ZeroDivisionError` there.
- Analyzer.SegmentCountIsPositionCount: excludes the one-row ledger whose only row is not neutral. There the source measures the open trade from its placeholder capital of −1 while counting no position; `Analyzer.Segments` states that case.
- Bollinger.CalMovingAvg: requires a non-empty window. pandas would return `nan` bands, and then every comparison is false.
- Sma20.SimpleMovingAverage: dates are day numbers, not pandas timestamps parsed from strings. The history is passed in rather than downloaded on every call.

## Findings

| source | as written | input that shows it | evidently intended | confidence | as-written member | corrected member |
|---|---|---|---|---|---|---|
| Algo.py:237-273 | A flip clears the other side's flag but not its tracked extreme. The next position on that side starts from the stale low or high | Consecutive days with closes 97, 92, 91, 107, 100, 95 and bands 100 ± 5, 95 ± 3, 90 ± 2, 100 ± 5, 102 ± 4, 101 ± 3. The short opens at 92 and holds at 91 (low 91). It flips to long at 107, and the long is stopped out at 100. The short opened at 95 is closed by the trailing stop on its first call, because the low is still 91 | A new position tracks its extreme from its own entry and is never closed on the day it opens | medium, not executed | Bollinger.StaleLowClosesFreshShort | Bollinger.RunAlgoRepaired |
| Algo.py:264-273 | The low restarts at the sentinel 10000, and min(10000, today) stays 10000 for closes above it | From the initial state, a short set up at 20000 with bands around 21000 ± 500. It is closed by the trailing stop on the call that opens it | The low tracks the short's own closes at any price level | medium, not executed | Bollinger.SentinelClosesFreshShort | Bollinger.RunAlgoRepaired |
| barebones.py:56-60 | `run_algo` assigns `self.short` and `self.long`, but `get_short` and `get_long` read `is_short` and `is_long` | Any run with a day whose close is above its average. `get_short()` still returns False | The decision sets `is_short` and `is_long`, as the method's docstring says | high, not executed | Sma20.GettersMissDecision | Sma20.RunAlgoRepaired |

=== FILE: analyzer.dfy ===
/** The ledger analyzers of `Backtest`: the position count, the segmentation
    of the ledger into trades, the outlier-trimmed mean P/L and the Kelley
    criterion, and the buy-and-hold control benchmark. All are pure
    functions of a finished ledger. */
module Analyzer {
  import opened Results
  import opened Stats
  import opened Ledger

  datatype AnalyzerError =
    | TrimmedEmpty      // every trade was trimmed as an outlier
    | NoLosingTrades    // the win/loss ratio has no losing trade to divide by
    | NoWinningTrades   // the win/loss ratio is zero and divides the loss term
    | ZeroCapital       // a return is taken relative to zero capital
    | TooFewRows        // the control benchmark reads row 1

  /** One trade: the capital when it was entered and when it was left (or
      the last row's capital if it is still open). */
  datatype Trade = Trade(entryCapital: real, exitCapital: real)

  datatype PlSummary = PlSummary(averagePl: real, averageTrimmedPl: real, kelley: real)

  // ---------------------------------------------------------------------
  // Entries: where a new position is taken

  /** The label row `i` is compared with: the row before it, except that the
      analyzers start from an unset (neutral) label, so row 0's own label is
      never consulted. */
  function LabelBefore(ledger: seq<Row>, i: int): Position
    requires 1 <= i <= |ledger|
  {
    if i == 1 then Neutral else ledger[i - 1].pos
  }

  /** Row `i` takes a new position: it is long or short and differs from the
      label before it. */
  predicate IsEntry(ledger: seq<Row>, i: int)
    requires 1 <= i < |ledger|
  {
    ledger[i].pos != Neutral && ledger[i].pos != LabelBefore(ledger, i)
  }

  /** The entries at or after row `i`. */
  function EntriesFrom(ledger: seq<Row>, i: int): set<int>
    requires 1 <= i
  {
    set j | i <= j < |ledger| && IsEntry(ledger, j)
  }

  /** No entry lies past the last row. */
  lemma NoEntriesAtEnd(ledger: seq<Row>)
    requires |ledger| >= 1
    ensures |EntriesFrom(ledger, |ledger|)| == 0
  {
    assert EntriesFrom(ledger, |ledger|) == {};
  }

  /** Row `i` adds itself to the entries from `i + 1` exactly when it is one. */
  lemma EntriesFromStep(ledger: seq<Row>, i: int)
    requires 1 <= i < |ledger|
    ensures |EntriesFrom(ledger, i)| == (if IsEntry(ledger, i) then 1 else 0) + |EntriesFrom(ledger, i + 1)|
  {
    var rest := EntriesFrom(ledger, i + 1);
    if IsEntry(ledger, i) {
      assert EntriesFrom(ledger, i) == {i} + rest by {
        forall j ensures j in EntriesFrom(ledger, i) <==> j == i || j in rest {
        }
      }
      assert i !in rest;
      assert |{i} + rest| == 1 + |rest|;
    } else {
      assert EntriesFrom(ledger, i) == rest by {
        forall j ensures j in EntriesFrom(ledger, i) <==> j in rest {
        }
      }
    }
  }

  // ---------------------------------------------------------------------
  // _position_count

  /** The counting loop of `_position_count` from row `i`, with `pos` the
      label it last recorded. */
  function CountFrom(ledger: seq<Row>, i: int, pos: Position): (n: nat)
    requires 1 <= i
    // at most one position per row scanned
    ensures i <= |ledger| ==> n <= |ledger| - i
    decreases |ledger| - i
  {
    if i >= |ledger| then 0
    else if ledger[i].pos != pos then
      var step := if pos == Neutral then 1 else if ledger[i].pos != Neutral then 1 else 0;
      step + CountFrom(ledger, i + 1, ledger[i].pos)
    else CountFrom(ledger, i + 1, pos)
  }

  /** `_position_count`: the number of positions taken, which is the number
      of rows that take a new position (row 0 read as `None`). */
  function PositionCount(ledger: seq<Row>): (n: nat)
    ensures n == |EntriesFrom(ledger, 1)|
  {
    if |ledger| == 0 then
      assert EntriesFrom(ledger, 1) == {};
      CountFrom(ledger, 1, Neutral)
    else
      CountFromIsEntries(ledger, 1);
      CountFrom(ledger, 1, Neutral)
  }

  /** The loop counts exactly the entries after it. */
  lemma {:induction false} CountFromIsEntries(ledger: seq<Row>, i: int)
    requires 1 <= i <= |ledger|
    ensures CountFrom(ledger, i, LabelBefore(ledger, i)) == |EntriesFrom(ledger, i)|
    decreases |ledger| - i
  {
    if i < |ledger| {
      CountFromIsEntries(ledger, i + 1);
      EntriesFromStep(ledger, i);
      if IsEntry(ledger, i) {
        assert CountFrom(ledger, i, LabelBefore(ledger, i)) == 1 + CountFrom(ledger, i + 1, LabelBefore(ledger, i + 1));
      } else {
        assert CountFrom(ledger, i, LabelBefore(ledger, i)) == CountFrom(ledger, i + 1, LabelBefore(ledger, i + 1));
      }
    }
  }

  // ---------------------------------------------------------------------
  // Trade segmentation (first part of _pl_ratios_and_kelley_and_sharpe)

  /** The segmentation loop from row `i`: `pos` is the label it last
      recorded and `cp` the capital when that label began. A trade is closed
      whenever a non-neutral label changes, and once more at the end if the
      last row is still in a position. */
  function ScanTrades(ledger: seq<Row>, i: int, pos: Position, cp: real): (r: seq<Trade>)
    requires 1 <= i <= |ledger|
    // at most one trade per row scanned, plus the one still open at the end
    ensures |r| <= |ledger| - i + 1
    decreases |ledger| - i
  {
    if i == |ledger| then
      if ledger[|ledger| - 1].pos != Neutral then [Trade(cp, ledger[|ledger| - 1].capital)] else []
    else if ledger[i].pos != pos then
      if pos == Neutral then ScanTrades(ledger, i + 1, ledger[i].pos, ledger[i].capital)
      else [Trade(cp, ledger[i].capital)] + ScanTrades(ledger, i + 1, ledger[i].pos, ledger[i].capital)
    else ScanTrades(ledger, i + 1, pos, cp)
  }

  /** The trades of a ledger, in order: one per entry, from the capital at
      the entry to the capital at the next label change or at the last row.
      The loop starts with `cp = -1`, which only a one-row ledger whose row
      is not neutral ever reports. */
  function Segments(ledger: seq<Row>): (r: seq<Trade>)
    requires |ledger| >= 1
    ensures |ledger| >= 2 || ledger[0].pos == Neutral ==>
              r == TradesFrom(ledger, 1) && |r| == |EntriesFrom(ledger, 1)|
    ensures |ledger| == 1 && ledger[0].pos != Neutral ==> r == [Trade(-1.0, ledger[0].capital)]
  {
    if |ledger| >= 2 || ledger[0].pos == Neutral then
      ScanMatchesReference(ledger, 1, Neutral, -1.0);
      ScanTrades(ledger, 1, Neutral, -1.0)
    else
      ScanTrades(ledger, 1, Neutral, -1.0)
  }

  /** The first row at or after `j` whose label is not `p`, or the last row
      if there is none: where a position labelled `p` is left. */
  function ExitRow(ledger: seq<Row>, p: Position, j: int): (k: int)
    requires 1 <= j <= |ledger|
    ensures j <= k < |ledger| || k == |ledger| - 1
    ensures 0 <= k < |ledger|
    decreases |ledger| - j
  {
    if j == |ledger| then |ledger| - 1
    else if ledger[j].pos != p then j
    else ExitRow(ledger, p, j + 1)
  }

  /** What the exit row means: every row from `j` up to it keeps the label
      `p`, and it changes the label unless it is the last row. */
  lemma {:induction false} ExitRowLeavesLabel(ledger: seq<Row>, p: Position, j: int)
    requires 1 <= j <= |ledger|
    ensures forall m :: j <= m < ExitRow(ledger, p, j) ==> ledger[m].pos == p
    ensures ExitRow(ledger, p, j) >= j ==>
              ExitRow(ledger, p, j) == |ledger| - 1 || ledger[ExitRow(ledger, p, j)].pos != p
    decreases |ledger| - j
  {
    if j < |ledger| && ledger[j].pos == p {
      ExitRowLeavesLabel(ledger, p, j + 1);
    }
  }

  /** The reference segmentation: one trade per entry at or after row `i`,
      from the capital at the entry to the capital where the label next
      changes (or at the last row). */
  function TradesFrom(ledger: seq<Row>, i: int): (r: seq<Trade>)
    requires 1 <= i <= |ledger|
    // one trade per entry
    ensures |r| == |EntriesFrom(ledger, i)|
    decreases |ledger| - i
  {
    if i == |ledger| then
      NoEntriesAtEnd(ledger);
      []
    else
      var here := if IsEntry(ledger, i)
        then [Trade(ledger[i].capital, ledger[ExitRow(ledger, ledger[i].pos, i + 1)].capital)]
        else [];
      EntriesFromStep(ledger, i);
      here + TradesFrom(ledger, i + 1)
  }

  /** The trade still open when the scan reaches row `i`, if any. */
  function OpenTrade(ledger: seq<Row>, i: int, pos: Position, cp: real): seq<Trade>
    requires 1 <= i <= |ledger|
  {
    if pos == Neutral then [] else [Trade(cp, ledger[ExitRow(ledger, pos, i)].capital)]
  }

  /** The loop's output from row `i` is the trade it holds open plus the
      reference trades of the entries still ahead. */
  lemma {:induction false} ScanMatchesReference(ledger: seq<Row>, i: int, pos: Position, cp: real)
    requires 1 <= i <= |ledger|
    requires |ledger| >= 2 || ledger[0].pos == Neutral
    requires pos == LabelBefore(ledger, i)
    ensures ScanTrades(ledger, i, pos, cp) == OpenTrade(ledger, i, pos, cp) + TradesFrom(ledger, i)
    decreases |ledger| - i
  {
    if i < |ledger| {
      var p := ledger[i].pos;
      var c := ledger[i].capital;
      var ahead := TradesFrom(ledger, i + 1);
      if p != pos {
        ScanMatchesReference(ledger, i + 1, p, c);
        assert ExitRow(ledger, pos, i) == i;
        if p == Neutral {
          assert !IsEntry(ledger, i);
          assert TradesFrom(ledger, i) == ahead;
        } else {
          assert IsEntry(ledger, i);
          assert TradesFrom(ledger, i) == OpenTrade(ledger, i + 1, p, c) + ahead;
        }
        if pos == Neutral {
          assert ScanTrades(ledger, i, pos, cp) == ScanTrades(ledger, i + 1, p, c);
        } else {
          assert ScanTrades(ledger, i, pos, cp) == [Trade(cp, c)] + ScanTrades(ledger, i + 1, p, c);
        }
      } else {
        ScanMatchesReference(ledger, i + 1, pos, cp);
        assert !IsEntry(ledger, i);
        assert TradesFrom(ledger, i) == ahead;
        assert ExitRow(ledger, pos, i) == ExitRow(ledger, pos, i + 1);
        assert ScanTrades(ledger, i, pos, cp) == ScanTrades(ledger, i + 1, pos, cp);
      }
    }
  }

  /** Position count and segmentation agree: one trade per position taken. */
  lemma SegmentCountIsPositionCount(ledger: seq<Row>)
    requires |ledger| >= 1 && (|ledger| >= 2 || ledger[0].pos == Neutral)
    ensures |Segments(ledger)| == PositionCount(ledger)
  {
  }

  // ---------------------------------------------------------------------
  // P/L ratios, outlier trimming and the Kelley criterion

  /** The return of `now` relative to `base`, and its sign. */
  function Ratio(now: real, base: real): (r: real)
    requires base != 0.0
    ensures base > 0.0 ==> (r > 0.0 <==> now > base) && (r < 0.0 <==> now < base)
  {
    var q := (now - base) / base;
    assert Prod(q, base) == now - base;
    assert base > 0.0 ==> (q > 0.0 <==> now > base) && (q < 0.0 <==> now < base) by {
      if base > 0.0 {
        SignOfProduct(q, base);
      }
    }
    q
  }

  /** A positive factor keeps the sign of the other. */
  lemma SignOfProduct(q: real, b: real)
    requires b > 0.0
    ensures Prod(q, b) > 0.0 <==> q > 0.0
    ensures Prod(q, b) < 0.0 <==> q < 0.0
  {
    if q > 0.0 {
      ProdMonotone(0.0, q, b);
    } else if q < 0.0 {
      ProdMonotone(q, 0.0, b);
    }
  }

  /** Each trade's P/L, `(exit - entry) / entry`. A trade entered with zero
      capital has no ratio. */
  function PlRatios(trades: seq<Trade>): (r: Result<seq<real>, AnalyzerError>)
    ensures r.Failure? <==> exists k :: 0 <= k < |trades| && trades[k].entryCapital == 0.0
    ensures r.Failure? ==> r.error == ZeroCapital
    ensures r.Success? ==> |r.value| == |trades|
    ensures r.Success? ==> forall k :: 0 <= k < |trades| ==>
              r.value[k] == Ratio(trades[k].exitCapital, trades[k].entryCapital)
    decreases |trades|
  {
    if |trades| == 0 then Success([])
    else if trades[0].entryCapital == 0.0 then Failure(ZeroCapital)
    else
      var t := trades[0];
      assert forall k :: 1 <= k < |trades| ==> trades[1..][k - 1] == trades[k];
      match PlRatios(trades[1..])
      case Failure(e) => Failure(e)
      case Success(rest) => Success([Ratio(t.exitCapital, t.entryCapital)] + rest)
  }

  /** numpy's outlier test `|pl - mean| < 2 * std`, compared squared: both
      sides are non-negative, so this is `(pl - mean)^2 < 4 * variance`. */
  predicate Kept(x: real, mean: real, variance: real)
  {
    Sq(x - mean) < 4.0 * variance
  }

  /** The squared test is the source's test whenever `std` is the
      non-negative square root of `variance`. */
  lemma KeptIsWithinTwoStd(x: real, mean: real, variance: real, std: real)
    requires std >= 0.0 && Sq(std) == variance
    ensures Kept(x, mean, variance) <==> Abs(x - mean) < 2.0 * std
  {
    var d := Abs(x - mean);
    assert Sq(x - mean) == Sq(d) by {
      if x - mean < 0.0 {
        assert Prod(x - mean, x - mean) == Prod(d, d);
      }
    }
    assert 4.0 * variance == Sq(2.0 * std);
    SquareMonotone(d, 2.0 * std);
  }

  function Abs(x: real): real
  {
    if x < 0.0 then -x else x
  }

  /** On non-negative reals, squaring preserves strict order both ways. */
  lemma SquareMonotone(a: real, b: real)
    requires a >= 0.0 && b >= 0.0
    ensures a < b <==> Sq(a) < Sq(b)
  {
    if a < b {
      ProdMonotone(a, b, b);
      if a > 0.0 {
        ProdMonotone(a, b, a);
        assert Prod(a, a) < Prod(b, a) == Prod(a, b);
      }
      assert Prod(a, b) <= Prod(b, b);
    } else {
      if b > 0.0 {
        ProdMonotone(b, a, b);
        ProdMonotone(b, a, a);
        assert Prod(b, a) == Prod(a, b);
      } else {
        assert b == 0.0;
        SquareNonNegative(a);
      }
    }
  }

  /** The trades numpy keeps: `pl[|pl - mean| < 2 * std]`, in order. */
  function Trim(pl: seq<real>, mean: real, variance: real): (r: seq<real>)
    ensures |r| <= |pl|
    ensures forall k :: 0 <= k < |r| ==> r[k] in pl && Kept(r[k], mean, variance)
    ensures forall k :: 0 <= k < |pl| && Kept(pl[k], mean, variance) ==> pl[k] in r
    // each kept value as often as it occurs, each dropped value never
    ensures forall x :: multiset(r)[x] == if Kept(x, mean, variance) then multiset(pl)[x] else 0
    decreases |pl|
  {
    if |pl| == 0 then []
    else
      var rest := Trim(pl[1..], mean, variance);
      assert pl == [pl[0]] + pl[1..];
      assert forall k :: 1 <= k < |pl| ==> pl[k] == pl[1..][k - 1];
      if Kept(pl[0], mean, variance) then [pl[0]] + rest else rest
  }

  /** Trimming removes every trade exactly when all trades are equal (the
      standard deviation is then zero and nothing is strictly within it). */
  lemma TrimmedEmptyIffAllEqual(pl: seq<real>)
    requires |pl| > 0
    ensures |Trim(pl, Mean(pl), Variance(pl))| == 0 <==> AllEqual(pl)
  {
    if AllEqual(pl) {
      ConstantTrimsAll(pl);
    } else {
      UnequalKeepsOne(pl);
    }
  }

  /** Equal trades have zero variance, and no deviation is below zero. */
  lemma ConstantTrimsAll(pl: seq<real>)
    requires |pl| > 0 && AllEqual(pl)
    ensures |Trim(pl, Mean(pl), Variance(pl))| == 0
  {
    var m := Mean(pl);
    var r := Trim(pl, m, Variance(pl));
    VarianceOfConstant(pl);
    if |r| > 0 {
      SquareNonNegative(r[0] - m);
      assert false;
    }
  }

  /** Unequal trades keep at least one: were every squared deviation at
      least four variances, their sum would be at least four times itself. */
  lemma UnequalKeepsOne(pl: seq<real>)
    requires |pl| > 0 && !AllEqual(pl)
    ensures |Trim(pl, Mean(pl), Variance(pl))| > 0
  {
    var m := Mean(pl);
    var v := Variance(pl);
    var i, j :| 0 <= i < |pl| && 0 <= j < |pl| && pl[i] != pl[j];
    var k := if pl[i] != m then i else j;
    SumSqDevPositive(pl, m, k);
    var t := SomeKept(pl, m, v);
    assert pl[t] in Trim(pl, m, v);
  }

  /** An index whose trade passes the test, when the deviations are not all zero. */
  lemma SomeKept(pl: seq<real>, m: real, v: real) returns (t: int)
    requires |pl| > 0 && SumSqDev(pl, m) > 0.0
    requires v == SumSqDev(pl, m) / (|pl| as real)
    ensures 0 <= t < |pl| && Kept(pl[t], m, v)
  {
    var s := SumSqDev(pl, m);
    var n := |pl| as real;
    if forall u :: 0 <= u < |pl| ==> !Kept(pl[u], m, v) {
      SumSqDevLowerBound(pl, m, 4.0 * v);
      FourfoldImpossible(s, n, v);
    }
    t :| 0 <= t < |pl| && Kept(pl[t], m, v);
  }

  /** A positive total cannot be four times its own average or more. */
  lemma FourfoldImpossible(s: real, n: real, v: real)
    requires n > 0.0 && s > 0.0 && v == s / n
    ensures s < n * (4.0 * v)
  {
    assert n * v == s;
    assert n * (4.0 * v) == 4.0 * s;
  }

  /** Number of winning trades (`pl > 0`). */
  function CountPositive(pl: seq<real>): nat
    decreases |pl|
  {
    if |pl| == 0 then 0 else (if pl[0] > 0.0 then 1 else 0) + CountPositive(pl[1..])
  }

  /** Number of losing trades (`pl < 0`). */
  function CountNegative(pl: seq<real>): nat
    decreases |pl|
  {
    if |pl| == 0 then 0 else (if pl[0] < 0.0 then 1 else 0) + CountNegative(pl[1..])
  }

  /** A trade is not both a win and a loss. */
  lemma {:induction false} CountsBounded(pl: seq<real>)
    ensures CountPositive(pl) + CountNegative(pl) <= |pl|
    decreases |pl|
  {
    if |pl| > 0 {
      CountsBounded(pl[1..]);
    }
  }

  /** The Kelley criterion `winProb - (1 - winProb) / (wins / losses)`. With
      at least one losing trade it stays strictly below the win probability,
      and with no break-even trade it is `(wins - losses) / wins`. */
  function Kelley(wins: nat, losses: nat, n: nat): (k: real)
    requires wins > 0 && losses > 0 && wins + losses <= n
    ensures k < wins as real / n as real
    ensures wins + losses == n ==> k == (wins as real - losses as real) / wins as real
  {
    var nr := n as real;
    var winProb := wins as real / nr;
    var winLoss := wins as real / losses as real;
    assert Prod(winProb, nr) == wins as real;
    assert winProb < 1.0 by {
      if winProb >= 1.0 {
        ProdMonotone(1.0, winProb, nr);
        assert false;
      }
    }
    assert winLoss > 0.0;
    assert (1.0 - winProb) / winLoss > 0.0;
    var k := winProb - (1.0 - winProb) / winLoss;
    assert wins + losses == n ==> k == (wins as real - losses as real) / wins as real by {
      if wins + losses == n {
        KelleyAlgebra(wins as real, losses as real, nr);
      }
    }
    k
  }

  /** `w/n - (1 - w/n) / (w/l) == (w - l) / w` when `n == w + l`. */
  lemma KelleyAlgebra(w: real, l: real, n: real)
    requires w > 0.0 && l > 0.0 && n == w + l
    ensures w / n - (1.0 - w / n) / (w / l) == (w - l) / w
  {
    var p := w / n;
    var q := l / n;
    assert p + q == (w + l) / n == 1.0;
    var a := q / (w / l);
    assert a == l / n * (l / w);
    assert p - a == (w * w - l * l) / (n * w);
    assert w * w - l * l == (w - l) * n;
    assert (w - l) * n / (n * w) == (w - l) / w;
  }

  /** The P/L statistics of `_pl_ratios_and_kelley_and_sharpe`: the mean
      P/L, the mean over the trades within two standard deviations of it,
      and the Kelley criterion, with the source's failures in its order. */
  function PlStatistics(pl: seq<real>): (r: Result<PlSummary, AnalyzerError>)
    ensures r == Failure(TrimmedEmpty) <==> AllEqual(pl)
    ensures r == Failure(NoLosingTrades) <==> !AllEqual(pl) && CountNegative(pl) == 0
    ensures r == Failure(NoWinningTrades) <==>
              !AllEqual(pl) && CountNegative(pl) > 0 && CountPositive(pl) == 0
    ensures r.Failure? ==> r.error in {TrimmedEmpty, NoLosingTrades, NoWinningTrades}
    ensures r.Success? ==>
              && |pl| > 0
              && Min(pl) <= r.value.averagePl <= Max(pl)
              && Min(pl) <= r.value.averageTrimmedPl <= Max(pl)
              && r.value.kelley < CountPositive(pl) as real / |pl| as real
  {
    if |pl| == 0 then Failure(TrimmedEmpty)
    else
      var m := Mean(pl);
      var trimmed := Trim(pl, m, Variance(pl));
      TrimmedEmptyIffAllEqual(pl);
      if |trimmed| == 0 then Failure(TrimmedEmpty)
      else
        var wins := CountPositive(pl);
        var losses := CountNegative(pl);
        if losses == 0 then Failure(NoLosingTrades)
        else if wins == 0 then Failure(NoWinningTrades)
        else
          CountsBounded(pl);
          MeanBetweenMinMax(pl);
          MeanWithinBounds(trimmed, Min(pl), Max(pl));
          Success(PlSummary(m, Mean(trimmed), Kelley(wins, losses, |pl|)))
  }

  /** With unequal P/L values and both a winning and a losing trade the
      statistics succeed, and the three values are the mean P/L, the mean of
      the kept trades and the Kelley criterion of the win and loss counts. */
  lemma PlStatisticsValues(pl: seq<real>)
    requires !AllEqual(pl) && CountPositive(pl) > 0 && CountNegative(pl) > 0
    ensures |pl| > 0 && PlStatistics(pl).Success?
    ensures PlStatistics(pl).value.averagePl == Mean(pl)
    ensures PlStatistics(pl).value.averageTrimmedPl == Mean(Trim(pl, Mean(pl), Variance(pl)))
    ensures CountPositive(pl) > 0 && CountNegative(pl) > 0
    ensures CountPositive(pl) + CountNegative(pl) <= |pl|
    ensures PlStatistics(pl).value.kelley == Kelley(CountPositive(pl), CountNegative(pl), |pl|)
  {
    CountsBounded(pl);
  }

  // ---------------------------------------------------------------------
  // _profit_control

  /** The buy-and-hold benchmark in percent: buy as many shares as row 0's
      capital affords at row 1's close, hold them to the last row. */
  function ProfitControl(ledger: seq<Row>): (r: Result<real, AnalyzerError>)
    requires |ledger| >= 2 ==> ledger[1].close > 0.0
    ensures r.Failure? <==> |ledger| < 2 || ledger[0].capital == 0.0
    ensures r.Success? ==>
              var start := ledger[0].capital;
              var first := ledger[1].close;
              var last := ledger[|ledger| - 1].close;
              var vol := Shares(start, first);
              // the cash left over after buying is less than one share
              && 0.0 <= start - Value(first, vol) < first
              // the gain is the shares held times the price move
              && r.value == Value(last - first, vol) / start * 100.0
              && (last == first ==> r.value == 0.0)
              && (start > 0.0 ==> (r.value > 0.0 <==> vol > 0 && last > first))
  {
    if |ledger| < 2 then Failure(TooFewRows)
    else
      var start := ledger[0].capital;
      var first := ledger[1].close;
      var last := ledger[|ledger| - 1].close;
      if start == 0.0 then Failure(ZeroCapital)
      else
        var vol := Shares(start, first);
        var final := start - Value(first, vol) + Value(last, vol);
        ValueOfDifference(last, first, vol);
        assert final - start == Value(last - first, vol);
        Success(ControlGain(final - start, start, vol, last - first))
  }

  /** `(final - start) / start * 100`, with the sign of a gain of `vol`
      shares over a price move `move`. */
  function ControlGain(gain: real, start: real, vol: int, move: real): (pct: real)
    requires start != 0.0
    requires gain == Value(move, vol)
    ensures move == 0.0 ==> pct == 0.0
    ensures start > 0.0 && vol >= 0 ==> (pct > 0.0 <==> vol > 0 && move > 0.0)
  {
    var pct := gain / start * 100.0;
    assert start > 0.0 && vol > 0 ==> (gain > 0.0 <==> move > 0.0) by {
      if start > 0.0 && vol > 0 {
        SignOfProduct(move, vol as real);
        assert Value(move, vol) == Prod(move, vol as real);
      }
    }
    pct
  }

  // ---------------------------------------------------------------------
  // _pl_ratios_and_kelley_and_sharpe, without the Sharpe ratio

  /** Segment the ledger into trades, take each trade's P/L ratio and
      summarise them. An empty ledger has no last row to read. */
  function PlAnalysis(ledger: seq<Row>): (r: Result<PlSummary, AnalyzerError>)
    ensures |ledger| == 0 ==> r == Failure(TooFewRows)
    ensures |ledger| > 0 ==>
              (r == Failure(ZeroCapital) <==>
                 exists k :: 0 <= k < |Segments(ledger)| && Segments(ledger)[k].entryCapital == 0.0)
    // a summary needs two trades of different P/L, so two rows and two positions
    ensures r.Success? ==> |ledger| >= 2 && PositionCount(ledger) >= 2
  {
    if |ledger| == 0 then Failure(TooFewRows)
    else
      match PlRatios(Segments(ledger))
      case Failure(e) => Failure(e)
      case Success(pl) =>
        var r := PlStatistics(pl);
        if r.Success? then
          assert |pl| >= 2;
          assert |Segments(ledger)| <= |ledger|;
          SegmentCountIsPositionCount(ledger);
          r
        else r
  }

  /** The return-on-investment term of the Sharpe ratio: the change of
      capital from the first row to the last, in percent of the first. */
  function ReturnOnInvestment(ledger: seq<Row>): (r: Result<real, AnalyzerError>)
    ensures r.Failure? <==> |ledger| == 0 || ledger[0].capital == 0.0
    ensures r.Success? && ledger[0].capital > 0.0 ==>
              (r.value > 0.0 <==> ledger[|ledger| - 1].capital > ledger[0].capital)
              && (r.value < 0.0 <==> ledger[|ledger| - 1].capital < ledger[0].capital)
  {
    if |ledger| == 0 then Failure(TooFewRows)
    else if ledger[0].capital == 0.0 then Failure(ZeroCapital)
    else Success(Ratio(ledger[|ledger| - 1].capital, ledger[0].capital) * 100.0)
  }
}

=== FILE: bollinger.dfy ===
/** The Bollinger-band signal generator `BollingerBands` (Algo.py, duplicated
    in Bollinger_Algorithm.py): the band arithmetic of `cal_moving_avg` and
    the entry/exit state machine that `run_algo` advances once per day. The
    rolling mean and standard deviation are inputs. */
module Bollinger {
  import opened Stats
  import Ledger

  /** The five numbers `cal_moving_avg` returns. */
  datatype Bands = Bands(sma: real, upper1: real, upper2: real, lower1: real, lower2: real)

  /** lower2 <= lower1 <= sma <= upper1 <= upper2. */
  predicate Ordered(b: Bands)
  {
    b.lower2 <= b.lower1 <= b.sma <= b.upper1 <= b.upper2
  }

  /** Bands one and two standard deviations either side of the mean of the
      window. */
  function CalMovingAvg(window: seq<real>, std: real): (b: Bands)
    requires |window| > 0
    ensures Min(window) <= b.sma <= Max(window)
    ensures std >= 0.0 ==> Ordered(b)
    ensures std > 0.0 ==> b.lower2 < b.lower1 < b.sma < b.upper1 < b.upper2
    ensures std == 0.0 ==> b.lower2 == b.lower1 == b.sma == b.upper1 == b.upper2
    // the bands are symmetric about the mean and equally spaced
    ensures b.upper1 - b.sma == b.sma - b.lower1 == b.upper2 - b.upper1 == b.lower1 - b.lower2
  {
    MeanBetweenMinMax(window);
    var sma := Mean(window);
    Bands(sma, sma + std, sma + 2.0 * std, sma - std, sma - 2.0 * std)
  }

  /** The strategy's memory between days. `highest` and `lowest` track the
      best close of the open long and short; outside a position they hold
      the sentinels `NoHigh` and `NoLow`. */
  datatype BandState = BandState(isLong: bool, isShort: bool, entry: real, highest: real, lowest: real)

  const NoHigh: real := -10000.0
  const NoLow: real := 10000.0

  /** A price move this large or larger counts: one tenth of a cent. */
  const Pip: real := 0.001

  /** The state a freshly constructed strategy starts in. */
  const Initial := BandState(false, false, 0.0, NoHigh, NoLow)

  /** Never long and short at once; the backtest aborts on that state. */
  predicate Exclusive(s: BandState)
  {
    !(s.isLong && s.isShort)
  }

  function MaxOf(a: real, b: real): real
  {
    if a >= b then a else b
  }

  function MinOf(a: real, b: real): real
  {
    if a <= b then a else b
  }

  /** Today's close between the first and second upper band after
      yesterday's close sat between the mean and the first upper band. */
  predicate LongSetup(today: real, yesterday: real, t: Bands, y: Bands)
  {
    today <= t.upper2 && today >= t.upper1 && yesterday <= y.upper1 && yesterday >= y.sma
  }

  /** The mirror image of `LongSetup` below the mean. */
  predicate ShortSetup(today: real, yesterday: real, t: Bands, y: Bands)
  {
    today <= t.lower1 && today >= t.lower2 && yesterday <= y.sma && yesterday >= y.lower1
  }

  /** Trailing stop of a long: the close fell from a high at or above the
      second upper band. */
  predicate TrailingLong(high: real, today: real, upper2: real)
  {
    high - today >= Pip && high >= upper2
  }

  /** Trailing stop of a short: the close rose from a low at or below the
      second lower band. */
  predicate TrailingShort(low: real, today: real, lower2: real)
  {
    today - low >= Pip && low <= lower2
  }

  // ---------------------------------------------------------------------
  // run_algo as written

  /** The long entry: when set up and not already long, go long at today's
      close and drop any short. */
  function EnterLong(s: BandState, today: real, setup: bool): (r: BandState)
    ensures r.highest == s.highest && r.lowest == s.lowest
    ensures r.isLong <==> s.isLong || setup
    ensures r != s ==> setup && !s.isLong && Exclusive(r) && r.entry == today
    ensures Exclusive(s) ==> Exclusive(r)
  {
    if setup && !s.isLong then s.(isLong := true, isShort := false, entry := today) else s
  }

  /** The short entry, the mirror image of `EnterLong`. */
  function EnterShort(s: BandState, today: real, setup: bool): (r: BandState)
    ensures r.highest == s.highest && r.lowest == s.lowest
    ensures r.isShort <==> s.isShort || setup
    ensures r != s ==> setup && !s.isShort && Exclusive(r) && r.entry == today
    ensures Exclusive(s) ==> Exclusive(r)
  {
    if setup && !s.isShort then s.(isShort := true, isLong := false, entry := today) else s
  }

  /** The long exit: raise the high, then apply the stop-loss and the
      trailing stop in turn; either one closes the long and resets the high. */
  function ExitLong(s: BandState, today: real, upper2: real): (r: BandState)
    ensures r.isShort == s.isShort && r.entry == s.entry && r.lowest == s.lowest
    ensures !s.isLong ==> r == s
    ensures s.isLong ==>
              (r.isLong <==> !(s.entry - today >= Pip) && !TrailingLong(MaxOf(s.highest, today), today, upper2))
    ensures r.isLong ==> r.highest == MaxOf(s.highest, today)
    ensures s.isLong && !r.isLong ==> r.highest == NoHigh
  {
    if !s.isLong then s
    else
      var raised := s.(highest := MaxOf(s.highest, today));
      var afterStop := if raised.entry - today >= Pip then raised.(isLong := false, highest := NoHigh) else raised;
      if afterStop.highest - today >= Pip && afterStop.highest >= upper2
      then afterStop.(isLong := false, highest := NoHigh)
      else afterStop
  }

  /** The short exit, the mirror image of `ExitLong`. */
  function ExitShort(s: BandState, today: real, lower2: real): (r: BandState)
    ensures r.isLong == s.isLong && r.entry == s.entry && r.highest == s.highest
    ensures !s.isShort ==> r == s
    ensures s.isShort ==>
              (r.isShort <==> !(today - s.entry >= Pip) && !TrailingShort(MinOf(s.lowest, today), today, lower2))
    ensures r.isShort ==> r.lowest == MinOf(s.lowest, today)
    ensures s.isShort && !r.isShort ==> r.lowest == NoLow
  {
    if !s.isShort then s
    else
      var lowered := s.(lowest := MinOf(s.lowest, today));
      var afterStop := if today - lowered.entry >= Pip then lowered.(isShort := false, lowest := NoLow) else lowered;
      if today - afterStop.lowest >= Pip && afterStop.lowest <= lower2
      then afterStop.(isShort := false, lowest := NoLow)
      else afterStop
  }

  /** One day of `run_algo`: the long entry, the short entry, the long exit
      and the short exit, each seeing the state the previous one left. */
  function RunAlgo(s: BandState, today: real, yesterday: real, t: Bands, y: Bands): (r: BandState)
    // mutual exclusion, which the backtest relies on, is preserved
    ensures Exclusive(s) ==> Exclusive(r)
    // a position needs its set-up, and a new one is entered at today's close
    ensures r.isLong ==> s.isLong || LongSetup(today, yesterday, t, y)
    ensures r.isShort ==> s.isShort || ShortSetup(today, yesterday, t, y)
    ensures r.isLong && !s.isLong ==> r.entry == today
    ensures r.isShort && !s.isShort ==> r.entry == today
    ensures r.entry == s.entry || r.entry == today
    // an open position tracks its best close
    ensures r.isLong ==> r.highest == MaxOf(s.highest, today) && r.highest >= today
    ensures r.isShort ==> r.lowest == MinOf(s.lowest, today) && r.lowest <= today
    ensures !r.isLong ==> r.highest == s.highest || r.highest == NoHigh
    ensures !r.isShort ==> r.lowest == s.lowest || r.lowest == NoLow
    // a position opened today escapes the stop-loss; only the trailing stop can close it
    ensures LongSetup(today, yesterday, t, y) && !s.isLong && !ShortSetup(today, yesterday, t, y) ==>
              (r.isLong <==> !TrailingLong(MaxOf(s.highest, today), today, t.upper2))
    ensures ShortSetup(today, yesterday, t, y) && !s.isShort ==>
              (r.isShort <==> !TrailingShort(MinOf(s.lowest, today), today, t.lower2))
  {
    var a := EnterLong(s, today, LongSetup(today, yesterday, t, y));
    var b := EnterShort(a, today, ShortSetup(today, yesterday, t, y));
    ExitShort(ExitLong(b, today, t.upper2), today, t.lower2)
  }

  /** `highest` and `lowest` hold their sentinels outside a position. */
  predicate Clean(s: BandState)
  {
    (!s.isLong ==> s.highest == NoHigh) && (!s.isShort ==> s.lowest == NoLow)
  }

  /** From a clean state and a close within the sentinels, a position opened
      today is still open at the end of the call. */
  lemma FreshEntrySurvivesWhenClean(s: BandState, today: real, yesterday: real, t: Bands, y: Bands)
    requires Clean(s) && NoHigh < today < NoLow
    ensures LongSetup(today, yesterday, t, y) && !s.isLong && !ShortSetup(today, yesterday, t, y) ==>
              RunAlgo(s, today, yesterday, t, y).isLong
    ensures ShortSetup(today, yesterday, t, y) && !s.isShort ==> RunAlgo(s, today, yesterday, t, y).isShort
  {
    if LongSetup(today, yesterday, t, y) && !s.isLong {
      assert MaxOf(s.highest, today) == today;
    }
    if ShortSetup(today, yesterday, t, y) && !s.isShort {
      assert MinOf(s.lowest, today) == today;
    }
  }

  /** A flip leaves the other side's extreme behind: a short closed by a
      flip to long keeps its low, and the next short, opened at a higher
      close, is closed by the trailing stop on the day it opens. The calls
      are consecutive days: closes 97 (day 0), 92, 91, 107, 100, 95, and
      bands `b0` to `b5`. Each call's `yesterday` and yesterday's bands are
      the previous call's `today` and today's bands. */
  lemma StaleLowClosesFreshShort()
    ensures var b0, b1, b2 := BandsAround(100.0, 5.0), BandsAround(95.0, 3.0), BandsAround(90.0, 2.0);
            var b3, b4, b5 := BandsAround(100.0, 5.0), BandsAround(102.0, 4.0), BandsAround(101.0, 3.0);
            var s1 := RunAlgo(Initial, 92.0, 97.0, b1, b0);
            var s2 := RunAlgo(s1, 91.0, 92.0, b2, b1);
            var s3 := RunAlgo(s2, 107.0, 91.0, b3, b2);
            var s4 := RunAlgo(s3, 100.0, 107.0, b4, b3);
            var s5 := RunAlgo(s4, 95.0, 100.0, b5, b4);
            && s1.isShort && s2.isShort && s2.lowest == 91.0
            && s3.isLong && !s3.isShort && s3.lowest == 91.0
            && !s4.isLong && !s4.isShort && s4.lowest == 91.0
            && ShortSetup(95.0, 100.0, b5, b4)
            && !s5.isShort && !s5.isLong
            && RunAlgoRepaired(s4, 95.0, 100.0, b5, b4).isShort
  {
  }

  /** The low sentinel is a price: a short opened above 10000 is closed by
      the trailing stop on the day it opens. */
  lemma SentinelClosesFreshShort()
    ensures var t := BandsAround(21000.0, 500.0);
            var s := RunAlgo(Initial, 20000.0, 20700.0, t, t);
            && ShortSetup(20000.0, 20700.0, t, t) && !Initial.isShort
            && !s.isShort
  {
  }

  /** Bands around a given mean, for concrete scenarios. */
  function BandsAround(sma: real, std: real): (b: Bands)
    ensures std >= 0.0 ==> Ordered(b)
    ensures b == CalMovingAvg([sma], std)
  {
    MeanOfConstant([sma], sma);
    Bands(sma, sma + std, sma + 2.0 * std, sma - std, sma - 2.0 * std)
  }

  // ---------------------------------------------------------------------
  // run_algo with entries that restart the tracked extreme

  /** `EnterLong` that also starts the high at the entry close. */
  function EnterLongRepaired(s: BandState, today: real, setup: bool): (r: BandState)
    ensures r.lowest == s.lowest
    ensures r.isLong <==> s.isLong || setup
    ensures r != s ==> setup && !s.isLong && Exclusive(r) && r.entry == today == r.highest
    ensures Exclusive(s) ==> Exclusive(r)
  {
    if setup && !s.isLong then s.(isLong := true, isShort := false, entry := today, highest := today) else s
  }

  /** `EnterShort` that also starts the low at the entry close. */
  function EnterShortRepaired(s: BandState, today: real, setup: bool): (r: BandState)
    ensures r.highest == s.highest
    ensures r.isShort <==> s.isShort || setup
    ensures r != s ==> setup && !s.isShort && Exclusive(r) && r.entry == today == r.lowest
    ensures Exclusive(s) ==> Exclusive(r)
  {
    if setup && !s.isShort then s.(isShort := true, isLong := false, entry := today, lowest := today) else s
  }

  /** One day of the strategy with the tracked extreme restarted at every
      entry: a position opened today is open at the end of the day, whatever
      earlier positions left behind and whatever the price level. */
  function RunAlgoRepaired(s: BandState, today: real, yesterday: real, t: Bands, y: Bands): (r: BandState)
    ensures Exclusive(s) ==> Exclusive(r)
    ensures r.isLong ==> s.isLong || LongSetup(today, yesterday, t, y)
    ensures r.isShort ==> s.isShort || ShortSetup(today, yesterday, t, y)
    ensures r.entry == s.entry || r.entry == today
    ensures r.isLong ==> r.highest >= today
    ensures r.isShort ==> r.lowest <= today
    ensures LongSetup(today, yesterday, t, y) && !s.isLong && !ShortSetup(today, yesterday, t, y) ==>
              r.isLong && r.entry == today
    ensures ShortSetup(today, yesterday, t, y) && !s.isShort ==> r.isShort && r.entry == today
  {
    var a := EnterLongRepaired(s, today, LongSetup(today, yesterday, t, y));
    var b := EnterShortRepaired(a, today, ShortSetup(today, yesterday, t, y));
    ExitShort(ExitLong(b, today, t.upper2), today, t.lower2)
  }

  // ---------------------------------------------------------------------
  // set_long / set_short

  /** `set_long` raises the long flag and touches nothing else, so on a
      short strategy it produces the state the backtest rejects. */
  function SetLong(s: BandState): (r: BandState)
    ensures r.isLong && r.isShort == s.isShort
    ensures r.entry == s.entry && r.highest == s.highest && r.lowest == s.lowest
    ensures Exclusive(r) <==> !s.isShort
  {
    s.(isLong := true)
  }

  /** `set_short`, the mirror image of `SetLong`. */
  function SetShort(s: BandState): (r: BandState)
    ensures r.isShort && r.isLong == s.isLong
    ensures r.entry == s.entry && r.highest == s.highest && r.lowest == s.lowest
    ensures Exclusive(r) <==> !s.isLong
  {
    s.(isShort := true)
  }

  // ---------------------------------------------------------------------
  // Feeding the backtest

  /** What `run_algo` reads on one day. */
  datatype Day = Day(today: real, yesterday: real, todayBands: Bands, yesterdayBands: Bands)

  /** One day of either state machine. */
  function Advance(s: BandState, d: Day, repaired: bool): (r: BandState)
    ensures Exclusive(s) ==> Exclusive(r)
  {
    if repaired then RunAlgoRepaired(s, d.today, d.yesterday, d.todayBands, d.yesterdayBands)
    else RunAlgo(s, d.today, d.yesterday, d.todayBands, d.yesterdayBands)
  }

  /** The (is_long, is_short) pair the backtest reads after each day. */
  function Signals(s: BandState, days: seq<Day>, repaired: bool): (sig: seq<Ledger.Signal>)
    requires Exclusive(s)
    ensures |sig| == |days|
    ensures forall i :: 0 <= i < |sig| ==> !(sig[i].isLong && sig[i].isShort)
    decreases |days|
  {
    if |days| == 0 then []
    else
      var next := Advance(s, days[0], repaired);
      [Ledger.Signal(next.isLong, next.isShort)] + Signals(next, days[1..], repaired)
  }

  /** Driven by the band strategy from its initial state, the backtest never
      aborts: it writes one row per close after the seed row. */
  lemma BandSignalsNeverAbort(seed: Ledger.Row, closes: seq<real>, days: seq<Day>, repaired: bool)
    requires |closes| == |days| && Ledger.PositivePrices(closes)
    ensures var o := Ledger.Run(seed, closes, Signals(Initial, days, repaired));
            o.Completed? && |o.rows| == |closes| + 1
  {
    var sig := Signals(Initial, days, repaired);
    forall i | 0 <= i < |sig|
      ensures !Ledger.Conflicting(sig, i)
    {
      assert !(sig[i].isLong && sig[i].isShort);
    }
  }
}

=== FILE: ledger.dfy ===
/** The backtest engine: the per-day ledger transition of `Backtest.run_backtest`
    and its fold over a price series.

    A row records the close, the position label, uninvested cash, the signed
    mark-to-market equity of the open position, the running capital
    accumulator and the share count. The source's `None` and `"Neutral"`
    labels are one `Neutral` here. */
module Ledger {
  import opened Results
  import Stats

  datatype Position = Long | Short | Neutral

  datatype Row = Row(
    close: real,
    pos: Position,
    cash: real,
    equity: real,
    capital: real,
    volume: int)

  /** What the trading algorithm reports for one day (`get_long`, `get_short`). */
  datatype Signal = Signal(isLong: bool, isShort: bool)

  datatype EngineError = BothLongAndShort

  datatype RunOutcome =
    | Completed(rows: seq<Row>)
      /** The algorithm reported both long and short on day `day`; `rows`
          holds the rows written before it. */
    | Aborted(day: nat, rows: seq<Row>)

  /** The accounting identity: capital is cash plus equity. */
  predicate Balanced(r: Row)
  {
    r.capital == r.cash + r.equity
  }

  /** The value of `shares` units at `price` (a price times a share count). */
  function Value(price: real, shares: int): real
  {
    Stats.Prod(price, shares as real)
  }

  /** A price difference distributes over a share count. */
  lemma ValueOfDifference(a: real, b: real, v: int)
    ensures Value(a - b, v) == Value(a, v) - Value(b, v)
  {
  }

  /** The equity marks: a long position is worth close times volume, a short
      one the negation, and a neutral row holds nothing. */
  predicate Marked(r: Row)
  {
    match r.pos
    case Long => r.equity == Value(r.close, r.volume)
    case Short => r.equity == -Value(r.close, r.volume)
    case Neutral => r.volume == 0 && r.equity == 0.0
  }

  /** The per-row invariant the engine maintains. */
  predicate Consistent(r: Row)
  {
    Balanced(r) && Marked(r)
  }

  /** The position a signal asks for; both flags at once is an error. */
  function Decide(s: Signal): (r: Result<Position, EngineError>)
    ensures r.Failure? <==> s.isLong && s.isShort
    ensures r.Success? ==> (r.value == Long <==> s.isLong) && (r.value == Short <==> s.isShort)
  {
    if s.isLong && s.isShort then Failure(BothLongAndShort)
    else if s.isLong then Success(Long)
    else if s.isShort then Success(Short)
    else Success(Neutral)
  }

  /** Row 0 of a fresh backtest: the first close, all capital held as cash. */
  function Seed(close: real, capital: real): (r: Row)
    ensures Consistent(r)
    ensures r.close == close
    ensures r.pos == Neutral && r.cash == capital && r.capital == capital
  {
    Row(close, Neutral, capital, 0.0, capital, 0)
  }

  /** The whole number of shares `cash` buys at `close` (Python's `//`):
      the largest count whose value does not exceed `cash`. */
  function Shares(cash: real, close: real): (v: int)
    requires close > 0.0
    ensures Value(close, v) <= cash < Value(close, v) + close
    ensures v >= 0 <==> cash >= 0.0
  {
    var v := (cash / close).Floor;
    FloorBounds(cash, close, v as real);
    v
  }

  /** `f <= cash / close < f + 1` scaled by the positive price. */
  lemma FloorBounds(cash: real, close: real, f: real)
    requires close > 0.0
    requires f <= cash / close < f + 1.0
    ensures close * f <= cash < close * f + close
  {
    var q := cash / close;
    assert Stats.Prod(q, close) == cash;
    Stats.ProdMonotone(f, q, close);
    Stats.ProdMonotone(q, f + 1.0, close);
    assert Stats.Prod(f + 1.0, close) == Stats.Prod(f, close) + close;
  }

  /** One day of `run_backtest`: today's row from yesterday's row, today's
      close and today's position. */
  function Step(prev: Row, close: real, pos: Position): (r: Row)
    requires close > 0.0
    ensures r.close == close && r.pos == pos
    // An unchanged label carries cash and volume forward.
    ensures pos == prev.pos ==> r.cash == prev.cash && r.volume == prev.volume
    // Entering a position (from neutral or by a flip) liquidates yesterday's
    // marked equity, buys the whole number of shares it affords and keeps capital.
    ensures pos != prev.pos && pos != Neutral ==>
              var liquid := prev.cash + prev.equity;
              && Value(close, r.volume) <= liquid < Value(close, r.volume) + close
              && r.capital == prev.capital
              && (r.volume >= 0 <==> liquid >= 0.0)
    // A long entry leaves less cash than one more share would cost.
    ensures pos != prev.pos && pos == Long ==> 0.0 <= r.cash < close
    // Closing to neutral settles the day's move and empties the position.
    ensures pos == Neutral && prev.pos == Long ==>
              && r.cash == prev.cash + Value(close, prev.volume)
              && r.capital == prev.capital + Value(close - prev.close, prev.volume)
    ensures pos == Neutral && prev.pos == Short ==>
              && r.cash == prev.cash - Value(close, prev.volume)
              && r.capital == prev.capital + Value(prev.close - close, prev.volume)
    ensures pos == Neutral && prev.pos == Neutral ==> r.capital == prev.capital
    ensures pos == Neutral && prev.pos != Neutral ==> r.volume == 0 && r.equity == 0.0
    // Holding a position moves capital by the day's price change.
    ensures pos == prev.pos == Long ==>
              r.capital == prev.capital + Value(close - prev.close, prev.volume)
    ensures pos == prev.pos == Short ==>
              r.capital == prev.capital + Value(prev.close - close, prev.volume)
  {
    var liquid := prev.cash + prev.equity;
    if pos != prev.pos then
      match pos
      case Long =>
        var vol := Shares(liquid, close);
        Row(close, Long, liquid - Value(close, vol), Value(close, vol), prev.capital, vol)
      case Short =>
        var vol := Shares(liquid, close);
        Row(close, Short, liquid + Value(close, vol), -Value(close, vol), prev.capital, vol)
      case Neutral =>
        if prev.pos == Long then
          Row(close, Neutral, prev.cash + Value(close, prev.volume), 0.0,
              prev.capital + Value(close - prev.close, prev.volume), 0)
        else
          Row(close, Neutral, prev.cash - Value(close, prev.volume), 0.0,
              prev.capital + Value(prev.close - close, prev.volume), 0)
    else
      match pos
      case Long =>
        Row(close, Long, prev.cash, Value(close, prev.volume),
            prev.capital + Value(close - prev.close, prev.volume), prev.volume)
      case Short =>
        Row(close, Short, prev.cash, -Value(close, prev.volume),
            prev.capital + Value(prev.close - close, prev.volume), prev.volume)
      case Neutral =>
        Row(close, Neutral, prev.cash, 0.0, prev.capital, prev.volume)
  }

  /** The accounting identity and the equity marks are inductive: a
      consistent row steps to a consistent row, flips included. */
  lemma {:induction false} StepConsistent(prev: Row, close: real, pos: Position)
    requires close > 0.0
    requires Consistent(prev)
    ensures Consistent(Step(prev, close, pos))
  {
    if pos != prev.pos {
      if pos == Neutral {
        if prev.pos == Long {
          ValueOfDifference(close, prev.close, prev.volume);
        } else {
          ValueOfDifference(prev.close, close, prev.volume);
        }
      }
    } else if pos == Long {
      ValueOfDifference(close, prev.close, prev.volume);
    } else if pos == Short {
      ValueOfDifference(prev.close, close, prev.volume);
    }
  }

  /** Every close is a positive price. */
  predicate PositivePrices(closes: seq<real>)
  {
    forall i :: 0 <= i < |closes| ==> closes[i] > 0.0
  }

  /** The signal on day `i` asks for both long and short. */
  predicate Conflicting(signals: seq<Signal>, i: int)
    requires 0 <= i < |signals|
  {
    signals[i].isLong && signals[i].isShort
  }

  /** `rows` is what the engine writes after `prev`: each row is the step
      from the row before it, at that day's close, to the position that
      day's signal asks for. */
  predicate Follows(prev: Row, rows: seq<Row>, closes: seq<real>, signals: seq<Signal>)
    requires |rows| <= |closes| == |signals|
    requires PositivePrices(closes)
  {
    forall i :: 0 <= i < |rows| ==> StepsAt(prev, rows, closes, signals, i)
  }

  /** Row `i` is day `i`'s step from the row before it. */
  predicate StepsAt(prev: Row, rows: seq<Row>, closes: seq<real>, signals: seq<Signal>, i: int)
    requires 0 <= i < |rows| <= |closes| == |signals|
    requires PositivePrices(closes)
  {
    && rows[i].close == closes[i]
    && Decide(signals[i]) == Success(rows[i].pos)
    && rows[i] == Step(if i == 0 then prev else rows[i - 1], closes[i], rows[i].pos)
  }

  /** Prepending one step to rows that follow it. */
  lemma FollowsCons(prev: Row, r: Row, rows: seq<Row>, closes: seq<real>, signals: seq<Signal>)
    requires |rows| < |closes| == |signals|
    requires PositivePrices(closes) && PositivePrices(closes[1..])
    requires Decide(signals[0]) == Success(r.pos)
    requires r == Step(prev, closes[0], r.pos)
    requires Follows(r, rows, closes[1..], signals[1..])
    ensures Follows(prev, [r] + rows, closes, signals)
  {
    var all := [r] + rows;
    forall i | 0 <= i < |all|
      ensures StepsAt(prev, all, closes, signals, i)
    {
      if i > 0 {
        var j := i - 1;
        assert StepsAt(r, rows, closes[1..], signals[1..], j);
        assert all[i] == rows[j];
        assert closes[1..][j] == closes[i];
        assert signals[1..][j] == signals[i];
        assert all[i - 1] == if j == 0 then r else rows[j - 1];
      }
    }
  }

  /** Consistency of every row, given a consistent starting row. */
  lemma {:induction false} FollowsConsistent(prev: Row, rows: seq<Row>, closes: seq<real>, signals: seq<Signal>)
    requires |rows| <= |closes| == |signals|
    requires PositivePrices(closes)
    requires Follows(prev, rows, closes, signals)
    requires Consistent(prev)
    ensures forall i :: 0 <= i < |rows| ==> Consistent(rows[i])
  {
    forall i | 0 <= i < |rows|
      ensures Consistent(rows[i])
    {
      ConsistentUpTo(prev, rows, closes, signals, i);
    }
  }

  lemma {:induction false} ConsistentUpTo(prev: Row, rows: seq<Row>, closes: seq<real>, signals: seq<Signal>, k: nat)
    requires |rows| <= |closes| == |signals|
    requires PositivePrices(closes)
    requires Follows(prev, rows, closes, signals)
    requires Consistent(prev)
    requires k < |rows|
    ensures Consistent(rows[k])
    decreases k
  {
    assert StepsAt(prev, rows, closes, signals, k);
    if k == 0 {
      StepConsistent(prev, closes[0], rows[0].pos);
    } else {
      ConsistentUpTo(prev, rows, closes, signals, k - 1);
      StepConsistent(rows[k - 1], closes[k], rows[k].pos);
    }
  }

  /** The rows written after `prev`, one per close, until the run ends or the
      algorithm reports both long and short. */
  function RunFrom(prev: Row, closes: seq<real>, signals: seq<Signal>): (o: RunOutcome)
    requires |closes| == |signals|
    requires PositivePrices(closes)
    ensures o.Completed? <==> forall i :: 0 <= i < |signals| ==> !Conflicting(signals, i)
    ensures o.Completed? ==> |o.rows| == |closes|
    ensures o.Aborted? ==>
              && o.day < |signals|
              && Conflicting(signals, o.day)
              && (forall i :: 0 <= i < o.day ==> !Conflicting(signals, i))
              && |o.rows| == o.day
    ensures |o.rows| <= |closes|
    ensures Follows(prev, o.rows, closes, signals)
    decreases |closes|
  {
    if |closes| == 0 then Completed([])
    else
      match Decide(signals[0])
      case Failure(_) =>
        assert Conflicting(signals, 0);
        Aborted(0, [])
      case Success(pos) =>
        var r := Step(prev, closes[0], pos);
        assert PositivePrices(closes[1..]) by {
          forall i | 0 <= i < |closes| - 1 ensures closes[1..][i] > 0.0 {
            assert closes[1..][i] == closes[i + 1];
          }
        }
        var rest := RunFrom(r, closes[1..], signals[1..]);
        assert forall i :: 1 <= i < |signals| ==> (Conflicting(signals, i) <==> Conflicting(signals[1..], i - 1));
        FollowsCons(prev, r, rest.rows, closes, signals);
        match rest
        case Completed(rows) => Completed([r] + rows)
        case Aborted(d, rows) =>
          assert Conflicting(signals, d + 1);
          Aborted(d + 1, [r] + rows)
  }

  /** `run_backtest` from the seed row: the full ledger, row 0 included. */
  function Run(seed: Row, closes: seq<real>, signals: seq<Signal>): (o: RunOutcome)
    requires |closes| == |signals|
    requires PositivePrices(closes)
    ensures o.Completed? <==> forall i :: 0 <= i < |signals| ==> !Conflicting(signals, i)
    ensures o.Completed? ==> |o.rows| == |closes| + 1
    ensures |o.rows| <= |closes| + 1
    ensures o.Aborted? ==> o.day < |signals| && |o.rows| == o.day + 1 && Conflicting(signals, o.day)
    ensures o.Aborted? ==> forall i :: 0 <= i < o.day ==> !Conflicting(signals, i)
    ensures |o.rows| > 0 && o.rows[0] == seed
    // every later row is the step, at that day's close, to the label that
    // day's signal asks for
    ensures |o.rows[1..]| <= |closes| && Follows(seed, o.rows[1..], closes, signals)
    ensures forall i :: 1 <= i < |o.rows| ==> o.rows[i].close == closes[i - 1]
    ensures Consistent(seed) ==>
              forall i :: 0 <= i < |o.rows| ==> o.rows[i].capital == o.rows[i].cash + o.rows[i].equity
    ensures Consistent(seed) ==>
              forall i :: 0 <= i < |o.rows| && o.rows[i].pos == Neutral ==> o.rows[i].volume == 0 && o.rows[i].equity == 0.0
    ensures Consistent(seed) ==>
              forall i :: 0 <= i < |o.rows| && o.rows[i].pos == Long ==> o.rows[i].equity == Value(o.rows[i].close, o.rows[i].volume)
    ensures Consistent(seed) ==>
              forall i :: 0 <= i < |o.rows| && o.rows[i].pos == Short ==> o.rows[i].equity == -Value(o.rows[i].close, o.rows[i].volume)
  {
    var o := RunFrom(seed, closes, signals);
    var all := [seed] + o.rows;
    assert all[1..] == o.rows;
    assert forall i :: 1 <= i < |all| ==> all[i] == o.rows[i - 1];
    assert Consistent(seed) ==> forall i :: 0 <= i < |all| ==> Consistent(all[i]) by {
      if Consistent(seed) {
        FollowsConsistent(seed, o.rows, closes, signals);
      }
    }
    assert forall i :: 1 <= i < |all| ==> all[i].close == closes[i - 1] by {
      forall i | 1 <= i < |all|
        ensures all[i].close == closes[i - 1]
      {
        assert StepsAt(seed, o.rows, closes, signals, i - 1);
      }
    }
    if o.Completed? then Completed(all) else Aborted(o.day, all)
  }
}

=== FILE: results.dfy ===
/** The outcome of an operation that the source can abort with an exception,
    and an optional value. */
module Results {

  datatype Result<T, E> = Success(value: T) | Failure(error: E)

  datatype Option<T> = None | Some(value: T)
}

=== FILE: sma20.dfy ===
/** The SMA20 strategy of barebones.py: the 20-day simple moving average at
    a requested date, which steps back to the latest trading day on or
    before it, and the per-day long/short rule of `run_algo`. The price
    history is an input; dates are day numbers. */
module Sma20 {
  import opened Results
  import opened Stats

  /** Trading days and their closes, oldest first. */
  datatype History = History(dates: seq<int>, closes: seq<real>)

  /** One close per trading day, and trading days strictly increasing. */
  predicate Valid(h: History)
  {
    && |h.dates| == |h.closes|
    && forall i, j :: 0 <= i < j < |h.dates| ==> h.dates[i] < h.dates[j]
  }

  datatype SmaError =
    | EmptyHistory     // the history has no first date to compare with
    | BeforeFirstDate  // the requested date precedes the history
    | UnknownStopDate  // the stop date is not a trading day

  // ---------------------------------------------------------------------
  // The window average

  /** The closes averaged for trading day `idx`: the 20 ending at it, or
      all of them up to it early in the history. */
  function Window(closes: seq<real>, idx: nat): (w: seq<real>)
    requires idx < |closes|
    ensures |w| == if idx >= 19 then 20 else idx + 1
    ensures w[|w| - 1] == closes[idx]
  {
    closes[(if idx >= 19 then idx - 19 else 0)..idx + 1]
  }

  /** The two branches of `get_simple_moving_average`: the 20 closes
      `idx - 19 .. idx` over 20 past index 19, otherwise every close up to
      `idx` over their number. Both are the mean of `Window`. */
  function WindowMean(closes: seq<real>, idx: nat): (m: real)
    requires idx < |closes|
    ensures m == Mean(Window(closes, idx))
  {
    var w := Window(closes, idx);
    if idx > 19 then
      var recent := closes[idx - 19..idx + 1];
      assert recent == w && |w| as real == 20.0;
      Sum(recent) / 20.0
    else
      var early := closes[0..idx + 1];
      assert early == w;
      var lenRemaining := |early|;
      Sum(early) / (lenRemaining as real)
  }

  /** The average lies between the smallest and the largest close of its window. */
  lemma WindowMeanBounds(closes: seq<real>, idx: nat)
    requires idx < |closes|
    ensures Min(Window(closes, idx)) <= WindowMean(closes, idx) <= Max(Window(closes, idx))
  {
    MeanBetweenMinMax(Window(closes, idx));
  }

  /** Constant closes average to that constant. */
  lemma WindowMeanOfConstant(closes: seq<real>, idx: nat, c: real)
    requires idx < |closes|
    requires forall k :: 0 <= k < |Window(closes, idx)| ==> Window(closes, idx)[k] == c
    ensures WindowMean(closes, idx) == c
  {
    MeanOfConstant(Window(closes, idx), c);
  }

  // ---------------------------------------------------------------------
  // The trading-day fallback

  /** The index of the last trading day on or before `day`. */
  function LatestIndex(dates: seq<int>, day: int): (i: nat)
    requires |dates| > 0 && dates[0] <= day
    ensures i < |dates| && dates[i] <= day
    ensures forall j :: i < j < |dates| ==> day < dates[j]
    decreases |dates|
  {
    if dates[|dates| - 1] <= day then |dates| - 1
    else LatestIndex(dates[..|dates| - 1], day)
  }

  /** The position of a trading day (pandas `get_loc`). */
  function IndexOf(dates: seq<int>, d: int): (i: nat)
    requires d in dates
    ensures i < |dates| && dates[i] == d
    decreases |dates|
  {
    if dates[0] == d then 0 else 1 + IndexOf(dates[1..], d)
  }

  /** The source's loop: step back one day at a time until the date is a
      trading day. The first trading day bounds the walk. */
  method TradingDayOnOrBefore(dates: seq<int>, day: int) returns (d: int)
    requires |dates| > 0 && dates[0] <= day
    ensures d in dates && d <= day
    ensures forall k :: 0 <= k < |dates| && d < dates[k] ==> day < dates[k]
  {
    d := day;
    while d !in dates
      invariant dates[0] <= d <= day
      invariant forall k :: 0 <= k < |dates| && d < dates[k] ==> day < dates[k]
      decreases d - dates[0]
    {
      d := d - 1;
    }
  }

  /** The day the walk stops at is the one `LatestIndex` finds. */
  lemma WalkFindsLatest(h: History, day: int, d: int)
    requires Valid(h) && |h.dates| > 0 && h.dates[0] <= day
    requires d in h.dates && d <= day
    requires forall k :: 0 <= k < |h.dates| && d < h.dates[k] ==> day < h.dates[k]
    ensures IndexOf(h.dates, d) == LatestIndex(h.dates, day)
  {
    var i := IndexOf(h.dates, d);
    var k := LatestIndex(h.dates, day);
    assert i <= k by {
      assert h.dates[i] <= day;
    }
    assert k <= i by {
      assert h.dates[k] <= d;
    }
  }

  /** A trading day is its own latest trading day. */
  lemma LatestOfTradingDay(h: History, k: nat)
    requires Valid(h) && k < |h.dates|
    ensures h.dates[0] <= h.dates[k]
    ensures LatestIndex(h.dates, h.dates[k]) == k
  {
    var i := LatestIndex(h.dates, h.dates[k]);
    if 0 < k {
      assert h.dates[0] < h.dates[k];
    }
    assert i <= k by {
      assert h.dates[i] <= h.dates[k];
    }
  }

  /** The moving average at a date, or the source's failure. */
  function SmaAt(h: History, day: int): (r: Result<real, SmaError>)
    requires Valid(h)
    ensures r == Failure(EmptyHistory) <==> |h.dates| == 0
    ensures r == Failure(BeforeFirstDate) <==> |h.dates| > 0 && day < h.dates[0]
    ensures r.Success? ==>
              && |h.dates| > 0 && h.dates[0] <= day
              && var w := Window(h.closes, LatestIndex(h.dates, day));
                 Min(w) <= r.value <= Max(w)
  {
    if |h.dates| == 0 then Failure(EmptyHistory)
    else if day < h.dates[0] then Failure(BeforeFirstDate)
    else
      WindowMeanBounds(h.closes, LatestIndex(h.dates, day));
      Success(WindowMean(h.closes, LatestIndex(h.dates, day)))
  }

  /** `get_simple_moving_average`: reject a date before the history, walk
      back to a trading day, average the window ending there. */
  method SimpleMovingAverage(h: History, day: int) returns (r: Result<real, SmaError>)
    requires Valid(h)
    ensures r == SmaAt(h, day)
  {
    if |h.dates| == 0 {
      return Failure(EmptyHistory);
    }
    if day < h.dates[0] {
      return Failure(BeforeFirstDate);
    }
    var d := TradingDayOnOrBefore(h.dates, day);
    var idx := IndexOf(h.dates, d);
    WalkFindsLatest(h, day, d);
    return Success(WindowMean(h.closes, idx));
  }

  // ---------------------------------------------------------------------
  // run_algo

  /** The `long` and `short` values one day of `run_algo` writes. */
  datatype Decision = Decision(long: bool, short: bool)

  /** Short when the close is above the average, long otherwise: exactly
      one of the two. */
  function Decide(close: real, sma: real): (d: Decision)
    ensures d.short <==> close > sma
    ensures d.long <==> !d.short
  {
    if close > sma then Decision(false, true) else Decision(true, false)
  }

  /** The day whose average trading day `idx` is compared with: the first
      day uses the average at the requested date (whose latest trading day
      is `first`), every later day the average of the day before it. */
  function SmaDay(first: nat, idx: nat): nat
    requires first <= idx
  {
    if idx == first then first else idx - 1
  }

  /** What the loop leaves behind: the decision of its last day, if any. */
  function LastDecision(h: History, first: nat, stop: nat): Option<Decision>
    requires Valid(h) && stop <= |h.dates|
  {
    if first < stop then Some(Decide(h.closes[stop - 1], WindowMean(h.closes, SmaDay(first, stop - 1))))
    else None
  }

  /** The date the loop asks for on day `idx` has the average of `SmaDay`. */
  lemma LoopDayAverage(h: History, start: int, first: nat, idx: nat, cur: int)
    requires Valid(h) && |h.dates| > 0 && h.dates[0] <= start
    requires first == LatestIndex(h.dates, start) && first <= idx < |h.dates|
    requires cur == if idx == first then start else h.dates[idx - 1]
    ensures SmaAt(h, cur) == Success(WindowMean(h.closes, SmaDay(first, idx)))
  {
    if idx != first {
      LatestOfTradingDay(h, idx - 1);
    }
  }

  /** The decision loop over trading days `first .. stop - 1`. */
  method DecisionLoop(h: History, start: int, first: nat, stop: nat) returns (last: Option<Decision>)
    requires Valid(h) && |h.dates| > 0 && h.dates[0] <= start
    requires first == LatestIndex(h.dates, start) && stop <= |h.dates|
    ensures last == LastDecision(h, first, stop)
  {
    last := None;
    var cur := start;
    var idx := first;
    while idx < stop
      invariant first <= idx && (idx <= stop || idx == first)
      invariant cur == if idx == first then start else h.dates[idx - 1]
      invariant last == LastDecision(h, first, idx)
    {
      LoopDayAverage(h, start, first, idx, cur);
      var sma := SimpleMovingAverage(h, cur);
      last := Some(Decide(h.closes[idx], sma.value));
      cur := h.dates[idx];
      idx := idx + 1;
    }
  }

  /** The guards and the loop of `run_algo`, without the final assignment. */
  method RunDecisions(h: History, start: int, stop: int) returns (r: Result<Option<Decision>, SmaError>)
    requires Valid(h)
    ensures r == Failure(EmptyHistory) <==> |h.dates| == 0
    ensures r == Failure(BeforeFirstDate) <==> |h.dates| > 0 && start < h.dates[0]
    ensures r == Failure(UnknownStopDate) <==> |h.dates| > 0 && h.dates[0] <= start && stop !in h.dates
    ensures r.Failure? <==> |h.dates| == 0 || start < h.dates[0] || stop !in h.dates
    ensures r.Success? ==>
              && |h.dates| > 0 && h.dates[0] <= start && stop in h.dates
              && r.value == LastDecision(h, LatestIndex(h.dates, start), IndexOf(h.dates, stop))
  {
    if |h.dates| == 0 {
      return Failure(EmptyHistory);
    }
    if start < h.dates[0] {
      return Failure(BeforeFirstDate);
    }
    var startDay := TradingDayOnOrBefore(h.dates, start);
    var first := IndexOf(h.dates, startDay);
    WalkFindsLatest(h, start, startDay);
    if stop !in h.dates {
      return Failure(UnknownStopDate);
    }
    var last := DecisionLoop(h, start, first, IndexOf(h.dates, stop));
    return Success(last);
  }

  /** An SMA20 strategy: the flags its getters report, and the `long` and
      `short` attributes `run_algo` writes (absent until it first does). */
  datatype Strategy = Strategy(isLong: bool, isShort: bool, written: Option<Decision>)

  /** Never long and short at once. */
  predicate Exclusive(s: Strategy)
  {
    !(s.isLong && s.isShort)
  }

  /** The assignment as written: the decision goes to `long`/`short`, and
      `is_long`/`is_short`, which the getters report, never change. */
  function Record(s: Strategy, last: Option<Decision>): (r: Strategy)
    ensures r.isLong == s.isLong && r.isShort == s.isShort
    ensures last.Some? ==> r.written == last
    ensures last.None? ==> r == s
  {
    if last.Some? then s.(written := last) else s
  }

  /** The assignment as the docstring describes it: the decision sets the
      flags the getters report. */
  function RecordRepaired(s: Strategy, last: Option<Decision>): (r: Strategy)
    ensures last.Some? ==> r.isShort == last.value.short && r.isLong == last.value.long
    ensures last.Some? && last.value.long != last.value.short ==> r.isLong != r.isShort
    ensures last.None? ==> r == s
    ensures r.written == s.written
  {
    if last.Some? then s.(isLong := last.value.long, isShort := last.value.short) else s
  }

  /** A day decided short leaves the getters reporting the old flags. */
  lemma GettersMissDecision()
    ensures var s := Strategy(false, false, None);
            var d := Decide(101.0, 100.0);
            d.short && !Record(s, Some(d)).isShort && RecordRepaired(s, Some(d)).isShort
  {
  }

  /** `d` is what the last day `stop - 1` of a loop from `first` decides:
      exactly one of long and short, short when that close is above the
      average it is compared with. */
  predicate DecidesLastDay(h: History, first: nat, stop: nat, d: Decision)
    requires Valid(h) && first < stop <= |h.dates|
  {
    && d.long != d.short
    && (d.short <==> h.closes[stop - 1] > WindowMean(h.closes, SmaDay(first, stop - 1)))
  }

  /** `run_algo` as written. */
  method RunAlgo(s: Strategy, h: History, start: int, stop: int) returns (r: Result<Strategy, SmaError>)
    requires Valid(h)
    ensures r.Failure? <==> |h.dates| == 0 || start < h.dates[0] || stop !in h.dates
    ensures r.Success? ==> r.value.isLong == s.isLong && r.value.isShort == s.isShort
    ensures r.Success? ==>
              && |h.dates| > 0 && h.dates[0] <= start && stop in h.dates
              && var first := LatestIndex(h.dates, start);
                 var stopIdx := IndexOf(h.dates, stop);
                 if first < stopIdx then
                   r.value.written.Some? && DecidesLastDay(h, first, stopIdx, r.value.written.value)
                 else r.value == s
  {
    var decisions := RunDecisions(h, start, stop);
    if decisions.Failure? {
      return Failure(decisions.error);
    }
    var first := LatestIndex(h.dates, start);
    var stopIdx := IndexOf(h.dates, stop);
    var next := Record(s, decisions.value);
    assert first < stopIdx ==> next.written.Some? && DecidesLastDay(h, first, stopIdx, next.written.value);
    return Success(next);
  }

  /** `run_algo` setting the flags the getters report: after at least one
      day exactly one of them is set, short when the last close was above
      its average. */
  method RunAlgoRepaired(s: Strategy, h: History, start: int, stop: int) returns (r: Result<Strategy, SmaError>)
    requires Valid(h)
    ensures r.Failure? <==> |h.dates| == 0 || start < h.dates[0] || stop !in h.dates
    ensures r.Success? && Exclusive(s) ==> Exclusive(r.value)
    ensures r.Success? ==>
              && |h.dates| > 0 && h.dates[0] <= start && stop in h.dates
              && var first := LatestIndex(h.dates, start);
                 var stopIdx := IndexOf(h.dates, stop);
                 if first < stopIdx then
                   DecidesLastDay(h, first, stopIdx, Decision(r.value.isLong, r.value.isShort))
                 else r.value == s
  {
    var decisions := RunDecisions(h, start, stop);
    if decisions.Failure? {
      return Failure(decisions.error);
    }
    var first := LatestIndex(h.dates, start);
    var stopIdx := IndexOf(h.dates, stop);
    var next := RecordRepaired(s, decisions.value);
    assert first < stopIdx ==> DecidesLastDay(h, first, stopIdx, Decision(next.isLong, next.isShort));
    return Success(next);
  }
}

=== FILE: stats.dfy ===
/** Exact-arithmetic statistics over finite sequences of reals: sums, means,
    extrema and the population variance that numpy's `mean` and `std` compute
    (without the final square root, which the model never needs). */
module Stats {

  /** Sum of the elements, added front to back. */
  function Sum(xs: seq<real>): real
    decreases |xs|
  {
    if |xs| == 0 then 0.0 else xs[0] + Sum(xs[1..])
  }

  /** Arithmetic mean of a non-empty sequence. */
  function Mean(xs: seq<real>): real
    requires |xs| > 0
  {
    Sum(xs) / (|xs| as real)
  }

  /** Smallest element. */
  function Min(xs: seq<real>): (m: real)
    requires |xs| > 0
    ensures forall i :: 0 <= i < |xs| ==> m <= xs[i]
    ensures m in xs
    decreases |xs|
  {
    if |xs| == 1 then xs[0]
    else
      var rest := Min(xs[1..]);
      assert forall i :: 1 <= i < |xs| ==> xs[i] == xs[1..][i - 1];
      if xs[0] <= rest then xs[0] else rest
  }

  /** Largest element. */
  function Max(xs: seq<real>): (m: real)
    requires |xs| > 0
    ensures forall i :: 0 <= i < |xs| ==> xs[i] <= m
    ensures m in xs
    decreases |xs|
  {
    if |xs| == 1 then xs[0]
    else
      var rest := Max(xs[1..]);
      assert forall i :: 1 <= i < |xs| ==> xs[i] == xs[1..][i - 1];
      if xs[0] >= rest then xs[0] else rest
  }

  /** Every element equals every other one (vacuously so for zero or one element). */
  predicate AllEqual(xs: seq<real>)
  {
    forall i, j :: 0 <= i < |xs| && 0 <= j < |xs| ==> xs[i] == xs[j]
  }

  /** Product of two reals. Every product of the model, squares and share
      values included, is written through this function: the solver loses
      facts about a literal product of two variables. */
  function Prod(a: real, b: real): real
  {
    a * b
  }

  /** The square of a real. */
  function Sq(x: real): real
  {
    Prod(x, x)
  }

  /** Sum of squared deviations from `m`. */
  function SumSqDev(xs: seq<real>, m: real): real
    decreases |xs|
  {
    if |xs| == 0 then 0.0 else Sq(xs[0] - m) + SumSqDev(xs[1..], m)
  }

  /** Population variance (numpy's `std` squared, `ddof = 0`). */
  function Variance(xs: seq<real>): real
    requires |xs| > 0
  {
    SumSqDev(xs, Mean(xs)) / (|xs| as real)
  }

  /** Bounding every element bounds the sum. */
  lemma {:induction false} SumBounds(xs: seq<real>, lo: real, hi: real)
    requires forall i :: 0 <= i < |xs| ==> lo <= xs[i] <= hi
    ensures (|xs| as real) * lo <= Sum(xs) <= (|xs| as real) * hi
    decreases |xs|
  {
    if |xs| > 0 {
      assert forall i :: 0 <= i < |xs| - 1 ==> xs[1..][i] == xs[i + 1];
      SumBounds(xs[1..], lo, hi);
    }
  }

  /** The mean lies between the smallest and the largest element. */
  lemma MeanWithinBounds(xs: seq<real>, lo: real, hi: real)
    requires |xs| > 0
    requires forall i :: 0 <= i < |xs| ==> lo <= xs[i] <= hi
    ensures lo <= Mean(xs) <= hi
  {
    SumBounds(xs, lo, hi);
    var n := |xs| as real;
    assert n * lo <= Sum(xs) <= n * hi;
    assert Sum(xs) / n >= lo by { assert Sum(xs) >= lo * n; }
    assert Sum(xs) / n <= hi by { assert Sum(xs) <= hi * n; }
  }

  /** The mean of a non-empty sequence lies between its minimum and maximum. */
  lemma MeanBetweenMinMax(xs: seq<real>)
    requires |xs| > 0
    ensures Min(xs) <= Mean(xs) <= Max(xs)
  {
    MeanWithinBounds(xs, Min(xs), Max(xs));
  }

  /** The mean of a constant sequence is that constant. */
  lemma MeanOfConstant(xs: seq<real>, c: real)
    requires |xs| > 0
    requires forall i :: 0 <= i < |xs| ==> xs[i] == c
    ensures Mean(xs) == c
  {
    MeanWithinBounds(xs, c, c);
  }

  /** A square is never negative, and is positive away from zero. */
  lemma SquareNonNegative(x: real)
    ensures Sq(x) >= 0.0
    ensures x != 0.0 ==> Sq(x) > 0.0
  {
    if x > 0.0 {
      PositiveProduct(x, x);
    } else if x < 0.0 {
      PositiveProduct(-x, -x);
      assert Prod(-x, -x) == Prod(x, x);
    }
  }

  /** Multiplying by a positive factor keeps order, strict order included. */
  lemma ProdMonotone(a: real, b: real, c: real)
    requires a <= b && c > 0.0
    ensures Prod(a, c) <= Prod(b, c)
    ensures a < b ==> Prod(a, c) < Prod(b, c)
  {
  }

  /** A product of two positive reals is positive. */
  lemma PositiveProduct(a: real, b: real)
    requires a > 0.0 && b > 0.0
    ensures Prod(a, b) > 0.0
  {
  }

  /** Squared deviations never sum to a negative value. */
  lemma {:induction false} SumSqDevNonNegative(xs: seq<real>, m: real)
    ensures SumSqDev(xs, m) >= 0.0
    decreases |xs|
  {
    if |xs| > 0 {
      SquareNonNegative(xs[0] - m);
      SumSqDevNonNegative(xs[1..], m);
    }
  }

  /** One element away from `m` makes the squared deviations sum to a positive value. */
  lemma {:induction false} SumSqDevPositive(xs: seq<real>, m: real, k: int)
    requires 0 <= k < |xs| && xs[k] != m
    ensures SumSqDev(xs, m) > 0.0
    decreases |xs|
  {
    SquareNonNegative(xs[0] - m);
    SumSqDevNonNegative(xs[1..], m);
    if k > 0 {
      assert xs[1..][k - 1] == xs[k];
      SumSqDevPositive(xs[1..], m, k - 1);
    }
  }

  /** A lower bound on every squared deviation bounds their sum. */
  lemma {:induction false} SumSqDevLowerBound(xs: seq<real>, m: real, c: real)
    requires forall i :: 0 <= i < |xs| ==> Sq(xs[i] - m) >= c
    ensures SumSqDev(xs, m) >= (|xs| as real) * c
    decreases |xs|
  {
    if |xs| > 0 {
      assert forall i :: 0 <= i < |xs| - 1 ==> xs[1..][i] == xs[i + 1];
      SumSqDevLowerBound(xs[1..], m, c);
    }
  }

  /** A constant sequence has zero variance. */
  lemma VarianceOfConstant(xs: seq<real>)
    requires |xs| > 0
    requires AllEqual(xs)
    ensures Variance(xs) == 0.0
  {
    MeanOfConstant(xs, xs[0]);
    SumSqDevOfConstant(xs, xs[0]);
  }

  /** Deviations from the common value of a constant sequence sum to zero. */
  lemma {:induction false} SumSqDevOfConstant(xs: seq<real>, c: real)
    requires forall i :: 0 <= i < |xs| ==> xs[i] == c
    ensures SumSqDev(xs, c) == 0.0
    decreases |xs|
  {
    if |xs| > 0 {
      assert forall i :: 0 <= i < |xs| - 1 ==> xs[1..][i] == xs[i + 1];
      SumSqDevOfConstant(xs[1..], c);
    }
  }
}
